=== FILE: README.md ===
# Chat relay: reply flattening and the client's history window

A Dafny model of the two pieces of sequential logic in a small chat relay.
A Flask server forwards a conversation to a hosted language model and flattens
the model's nested JSON reply into one string. A React client keeps a bounded
conversation history that it sends with every message.

- **Server side** (`server.py`). `generate_response` wraps the conversation as
  `{"messages": context}` and sends it with a fixed model id. It then reads
  `output.message.content` from the reply, treating every missing level as
  empty. It maps each item to its `text` (`''` when absent), joins the texts
  with `"\n"` and strips the result. It falls back to
  `"No response from model."` when the joined string is empty. Any exception
  on the way is folded into the returned value `"Error: " + message`. The
  `/chat` route reads `context` from the request body, with `[]` as the
  default.
- **Client side** (`frontend/src/App.js`). `handleSend` ignores blank input.
  It pushes the user turn into the history and drops the oldest turn once
  there are more than ten. It clears the input box and posts the history. On
  a reply it pushes the assistant turn and trims the same way. On a failure it
  only displays an error turn.

Files:

- `results.dfy`: module `Results`, a `Result<T, E>` usable with `:-`. This is
  the two-variant result that stands in for Python's exceptions.
- `text.dfy`: module `Text`. It holds Python's `str.strip()` and JavaScript's
  `trim()` as one `Strip`, parameterised by each language's exact whitespace
  set. It also holds `Join` with its inverse `Split`, and decimal rendering of
  list indices.
- `json.dfy`: module `Json`. It holds the values `json.loads` produces,
  Python's `dict.get`, and the exact text of the exceptions CPython raises on
  ill-typed values.
- `server.dfy`: module `Server`. It models `generate_response` and `chat`.
- `server_facts.dfy`: module `ServerFacts`. It proves properties of the
  server model against reference definitions, and checks the test suite's
  examples.
- `app.dfy`: module `App`. It models `handleSend` as a state transition, plus
  runs of user events and the window invariant.

The remote call is a parameter, `Remote = InvokeRequest -> Result<Json, string>`.
This one opaque step covers `invoke_model`, the UTF-8 decode and
`json.loads`. It yields the parsed reply or the text of the exception raised.
Because the step receives the whole request, each result about
`GenerateResponse` is stated for whatever the service answers to
`Request(context)`. In the same way the client's POST is a parameter,
`Post = seq<Turn> -> PostOutcome`. It either delivers the server's `response`
string or is rejected. In a run of user events, each send carries its own
`Post`. So the same history may be rejected at one send and answered at the
next, or answered differently each time.

The fallback is chosen by testing the joined string before it is stripped
(server.py:31). So one text-less item gives the fallback, but two give `""`,
because their join is `"\n"` (`ServerFacts.TextlessItems`,
`ServerFacts.FallbackOnlyOnEmptyJoin`).

Because generator failures come back with status 200 as `"Error: ..."`
strings, the client treats them as delivered replies. So such a string enters
the history as an assistant turn.

## Model

| member | source | states |
|---|---|---|
| Server.Request | server.py:16-25 | The request carries the fixed model id and JSON as both accept and content type. Its body is an object whose only key is `messages`, holding the context unchanged, whatever roles it contains. |
| Server.ContentOf | server.py:29 | Each level is looked up in turn. A level that is present but not a dict makes the next `.get` fail with CPython's AttributeError text naming its type. A missing `output`, `message` or `content` yields the empty list. When all three are present dicts, the result is the stored `content`, whatever other keys the reply carries. |
| Server.ItemTexts | server.py:30 | The comprehension succeeds exactly when every item is a dict. It then gives one entry per item, in order, equal to `item.get('text', '')`. Otherwise the error names the type of the first non-dict item. |
| Server.ContentTexts | server.py:30 | A list is iterated item by item. An empty str or dict yields no items. A non-empty str or dict fails with "'str' object has no attribute 'get'", because its elements are strs. `None`, bools and numbers fail with "object is not iterable". |
| Server.Strings | server.py:30 | All items are strings exactly when the join succeeds, and then they are returned in order. Otherwise the TypeError names the index and type of the first non-string item. |
| Server.JoinTexts | server.py:30 | `"\n".join` succeeds exactly on all-string lists, and then yields their values joined with the separator in list order. Otherwise it raises CPython's "sequence item i: expected str instance" error for the first offending index. |
| Server.Finish | server.py:31 | An empty joined string gives exactly "No response from model.". Any other joined string gives its Python-stripped form, as characterised by `IsStripOf`. |
| Server.Flatten | server.py:27-34 | A failed remote step passes its message through unchanged. A successful result is the fallback or a string with no surrounding whitespace. |
| Server.GenerateResponse | server.py:14-34 | The function never fails. A failure of the remote step, or any exception while navigating or joining the reply, gives `"Error: " + message`. A successful flattening is returned as is. Every result is an error string, the fallback, or an unpadded reply. |
| Server.ContextOf | server.py:39 | Reading `context` succeeds exactly on object bodies. A present `context` is returned as stored, and a missing one yields `[]`. |
| Server.Chat | server.py:36-41 | An object body gives `{"response": s}`, where `s` is the generator's answer for that body's context. Any other body makes the route raise the AttributeError. |
| ServerFacts.FlattenOkIffNavigable | server.py:27-31 | Flattening succeeds exactly on replies the independent `Navigable` predicate accepts. Each level must be a dict or missing. The content must be a list of dicts whose `text` is a str or absent, or an empty str or dict. |
| ServerFacts.SameContentSameFlatten | server.py:29-31 | Two replies whose content lookups agree flatten to the same result. Keys other than the content path have no effect. |
| ServerFacts.FlattenTextItems | server.py:29-31 | For any reply whose content is a list of text items, the result is the items' texts joined with "\n" in list order and then finished. |
| ServerFacts.SingleText | server.py:30-31 | For any reply whose content is one text item, the result is its text stripped, or the fallback when the text is missing or empty. |
| ServerFacts.TextsJoinedInOrder | server.py:30-31 | For any reply whose content is a list of text items whose "\n"-join is non-empty and has no surrounding whitespace, the result is exactly that join, with the texts in their original order. |
| ServerFacts.ReplyLinesAreTexts | server.py:30 | For such a reply (a non-empty join with no surrounding whitespace), splitting it on "\n" returns exactly the item texts, provided no text holds its own newline. |
| Text.Join | server.py:30 | The join of no parts is empty and of one part is that part. A longer join starts with the first part, followed by the separator and the join of the remaining parts. |
| Text.SplitJoin | server.py:30 | Joining with a separator character and splitting on it gives back the original parts. |
| ServerFacts.MissingLevelsGiveFallback | server.py:29-31 | A missing `output`, `message` or `content` acts as an empty list, and an empty content list yields exactly the fallback. |
| ServerFacts.TextlessItems | server.py:30-31 | For any reply whose content is a list of dicts without `text`, the items still count as joined elements. One such item yields the fallback; two or more yield `""`. |
| ServerFacts.FallbackOnlyOnEmptyJoin | server.py:31 | The fallback appears exactly for an empty join, or for a join that strips to the fallback string. A non-empty all-whitespace join yields `""`. |
| ServerFacts.NonObjectReplyFails | server.py:29-34 | A reply that is not a dict gives "Error: '<type>' object has no attribute 'get'". |
| ServerFacts.NonStringTextFails | server.py:30-34 | In a content list of dicts, a `text` that is not a str makes the join fail. Earlier items may have a str `text` or none. The failure names the first such position and its type. |
| ServerFacts.SuiteSingleText | tests/test_server.py:61-82 | A reply carrying "Paris is the capital of France." is returned exactly. |
| ServerFacts.SuiteTwoTexts | tests/test_server.py:84-105 | Two parts are returned as "First part.\nSecond part.". |
| ServerFacts.SuiteFailures | tests/test_server.py:107-148 | An empty content list and a reply without `output` both give the fallback. A remote failure "AWS Error" gives "Error: AWS Error". |
| ServerFacts.ChatDefaultsContext | server.py:37-40 | A body without `context` runs the generator on `[]`. |
| Text.Strip | server.py:31 | The result is the input with leading and trailing whitespace removed, under Python's or JavaScript's whitespace set. |
| Text.StripCharacterized | server.py:31 | `Strip` is the unique string that is an infix of the input, surrounded only by whitespace, and itself unpadded. |
| Text.StripEmptyIffAllSpace | frontend/src/App.js:20 | A string strips to empty exactly when it consists entirely of whitespace. |
| Text.StripIdempotent | server.py:31 | Stripping twice is the same as stripping once. |
| Json.TypeName | server.py:29-30 | The type name in an error message is "dict", "list", "str" or "NoneType" exactly for a dict, a list, a str or `None`. It is "bool", "int" or "float" for a bool, an int or a float. |
| Text.NatToStringRoundTrip | server.py:30 | The index in the join's TypeError is written in decimal: reading the digits of `NatToString(n)` back gives `n`. |
| Json.Get | server.py:29 | `v.get(key, default)` succeeds exactly on dicts. It yields the stored value, or the default when the key is absent. On any other type it fails with the AttributeError text. |
| App.BlankIffTrimEmpty | frontend/src/App.js:20 | The send guard `!input.trim()` holds exactly for inputs made only of JavaScript whitespace, including the empty input. |
| App.PushBounded | frontend/src/App.js:25-29 | The pushed turn is last. Below ten turns nothing is dropped. At ten or more, exactly the oldest turn is dropped and the rest keep their order. A history of at most ten stays at most ten. |
| App.Submit | frontend/src/App.js:19-31 | Blank input changes nothing. Otherwise the untrimmed input is displayed and enters the history as `{role: "user", content: [{text: input}]}`, and the input is cleared. |
| App.Settle | frontend/src/App.js:38-58 | Exactly one display entry is appended. A delivered reply is pushed verbatim as the assistant turn. A rejection leaves the history unchanged and displays the fixed error turn. |
| App.HandleSend | frontend/src/App.js:19-60 | Blank input changes nothing. A non-blank send clears the input and adds two display entries. A history of at most ten turns stays at most ten. |
| App.PushKeepsLatest | frontend/src/App.js:25-29 | Push-then-shift on the last ten turns of a history gives the last ten turns of the extended history. |
| App.SendKeepsLatest | frontend/src/App.js:19-60 | After a send, the history is the last ten turns of the previous conversation plus the turns this send pushed. |
| App.RunKeepsLatest | frontend/src/App.js:19-60 | Over any sequence of typing and sending, with each send settling in its own way, the history stays the last ten turns of everything pushed. |
| App.InitialRunKeepsLatest | frontend/src/App.js:7-60 | Starting from the empty component, whatever each send's POST does, the history is always the last ten turns of the conversation and never longer than ten. |

## Left out

- The remote model call (`invoke_model`), its credentials and region, and the
  byte payload it returns. These become the `Remote` parameter.
- UTF-8 decoding and `json.loads`. Their outcome, a parsed value or an
  exception message, is part of what `Remote` yields. Duplicate keys, number
  precision and float values are not modelled; a float keeps only its
  literal text, since only its type name is ever observed.
- Serialising the request body with `json.dumps`. The body is kept as a JSON
  value.
- The exact text of exceptions raised inside the remote step. It is an
  arbitrary string. The exceptions the flattening itself raises are modelled
  with CPython's messages.
- Flask routing, the 400 answer to a malformed body, the 500 answer to an
  uncaught exception, the `OPTIONS` handler, CORS and `app.run`. These are
  HTTP plumbing. `Chat` returns the exception message where Flask would
  answer with a server error.
- Lone surrogates. Python strings from `json.loads` and JavaScript strings
  can hold an unpaired surrogate code point. A Dafny `char` is a Unicode
  scalar value and cannot, so such strings are outside the model.
- React rendering, scrolling, Markdown display, `console.error` logging,
  axios and the asynchrony of `handleSend`. Sends are modelled one at a time,
  each settling before the next. Overlapping sends can act on a stale
  `messages` list and interleave pushes into the history, and that is not
  modelled.
- A delivered POST whose body lacks a `response` field. The source would then
  push a turn whose text is `undefined`. The model's `Delivered` always
  carries a string.
- frontend/jest.config.js and the root test_server.py. These are test
  tooling and a live-server test.

=== FILE: app.dfy ===
/** The browser client's `handleSend` (frontend/src/App.js): the bounded
    conversation history sent to the server and the unbounded list of
    displayed messages. The POST to `/chat` is a parameter of each send:
    given the history it is sent, it either delivers the server's `response`
    string or is rejected. Sends are taken one at a time, each settling
    before the next begins. */
module App {
  import opened Text

  /** Turns kept in the history sent to the server. */
  const Window: nat := 10
  const UnreachableText: string := "Unable to connect to the server. Please try again."

  datatype Part = Part(text: string)

  /** A conversation turn as the client builds it: `{role, content: [{text}]}`. */
  datatype Turn = Turn(role: string, content: seq<Part>)

  /** A displayed message: the user's line carries its text directly as
      `content`; bot and error entries carry a whole turn. */
  datatype Shown = UserLine(text: string) | Bubble(turn: Turn)

  /** The component's state: the input box, the displayed messages and the
      history kept in the `context` ref. */
  datatype State = State(input: string, messages: seq<Shown>, context: seq<Turn>)

  /** How the awaited POST settles. */
  datatype PostOutcome = Delivered(response: string) | Rejected(reason: string)

  type Post = seq<Turn> -> PostOutcome

  function Initial(): State {
    State("", [], [])
  }

  function UserTurn(input: string): Turn {
    Turn("user", [Part(input)])
  }

  function AssistantTurn(response: string): Turn {
    Turn("assistant", [Part(response)])
  }

  function ErrorTurn(): Turn {
    Turn("error", [Part(UnreachableText)])
  }

  /** The input is empty or JavaScript whitespace only. */
  predicate IsBlank(input: string) {
    AllSpace(JavaScript, input)
  }

  /** `IsBlank` is the guard `!input.trim()`: trimming leaves nothing. */
  lemma BlankIffTrimEmpty(input: string)
    ensures IsBlank(input) <==> Strip(JavaScript, input) == ""
  {
    StripEmptyIffAllSpace(JavaScript, input);
  }

  /** `context.current.push(turn)` followed by one `shift()` when the length
      exceeds the window. */
  function PushBounded(context: seq<Turn>, turn: Turn): (r: seq<Turn>)
    ensures |r| > 0 && r[|r| - 1] == turn
    ensures |context| < Window ==> r == context + [turn]
    ensures |context| >= Window ==> r == context[1..] + [turn]
    ensures |context| <= Window ==> |r| <= Window
  {
    var pushed := context + [turn];
    if |pushed| > Window then pushed[1..] else pushed
  }

  /** The synchronous part of `handleSend`, up to the POST: a blank input
      changes nothing; otherwise the user's line is displayed, the user turn
      (built from the untrimmed input) enters the history and the input is
      cleared. */
  function Submit(st: State): (r: State)
    ensures IsBlank(st.input) ==> r == st
    ensures !IsBlank(st.input) ==> r.input == ""
    ensures !IsBlank(st.input) ==> r.messages == st.messages + [UserLine(st.input)]
    ensures !IsBlank(st.input) ==> r.context == PushBounded(st.context, UserTurn(st.input))
  {
    if IsBlank(st.input) then st
    else State("", st.messages + [UserLine(st.input)], PushBounded(st.context, UserTurn(st.input)))
  }

  /** The part of `handleSend` after the POST settles: a delivered reply
      becomes an assistant turn, displayed and pushed into the history; a
      rejection only displays the error turn. */
  function Settle(st: State, outcome: PostOutcome): (r: State)
    ensures r.input == st.input
    ensures |r.messages| == |st.messages| + 1 && r.messages[..|st.messages|] == st.messages
    ensures outcome.Rejected? ==> r.context == st.context && r.messages[|st.messages|] == Bubble(ErrorTurn())
    ensures outcome.Delivered? ==> r.context == PushBounded(st.context, AssistantTurn(outcome.response))
    ensures outcome.Delivered? ==> r.messages[|st.messages|] == Bubble(AssistantTurn(outcome.response))
  {
    match outcome
    case Delivered(response) =>
      var bot := AssistantTurn(response);
      State(st.input, st.messages + [Bubble(bot)], PushBounded(st.context, bot))
    case Rejected(_) =>
      State(st.input, st.messages + [Bubble(ErrorTurn())], st.context)
  }

  /** One full `handleSend`: the POST carries the history as it stands after
      the user turn was pushed. */
  function HandleSend(st: State, post: Post): (r: State)
    ensures IsBlank(st.input) ==> r == st
    ensures !IsBlank(st.input) ==> r.input == "" && |r.messages| == |st.messages| + 2
    ensures |st.context| <= Window ==> |r.context| <= Window
  {
    if IsBlank(st.input) then st
    else
      var submitted := Submit(st);
      Settle(submitted, post(submitted.context))
  }

  /** The turns a send adds to the conversation, before any trimming. */
  function Pushed(st: State, post: Post): seq<Turn> {
    if IsBlank(st.input) then []
    else
      var submitted := Submit(st);
      match post(submitted.context)
      case Delivered(response) => [UserTurn(st.input), AssistantTurn(response)]
      case Rejected(_) => [UserTurn(st.input)]
  }

  /** The last `n` elements of `s`, or all of it when it is shorter. */
  function LastN(s: seq<Turn>, n: nat): (r: seq<Turn>)
    ensures |r| == if |s| < n then |s| else n
  {
    if |s| <= n then s else s[|s| - n..]
  }

  /** Pushing onto the window of a history gives the window of the extended
      history: push-then-shift keeps exactly the most recent turns. */
  lemma PushKeepsLatest(history: seq<Turn>, turn: Turn)
    ensures PushBounded(LastN(history, Window), turn) == LastN(history + [turn], Window)
  {
    var h := history + [turn];
    if |history| >= Window {
      assert LastN(history, Window)[1..] + [turn] == h[|h| - Window..];
    }
  }

  /** A send extends the history by the turns it pushes, and the context
      stays the window of that history. */
  lemma SendKeepsLatest(st: State, post: Post, history: seq<Turn>)
    requires st.context == LastN(history, Window)
    ensures HandleSend(st, post).context == LastN(history + Pushed(st, post), Window)
  {
    if !IsBlank(st.input) {
      var user := UserTurn(st.input);
      PushKeepsLatest(history, user);
      var submitted := Submit(st);
      match post(submitted.context) {
        case Delivered(response) =>
          PushKeepsLatest(history + [user], AssistantTurn(response));
          assert history + [user] + [AssistantTurn(response)] == history + Pushed(st, post);
        case Rejected(_) =>
      }
    } else {
      assert history + Pushed(st, post) == history;
    }
  }

  /** User events on the component: typing into the box, or sending. Each
      send carries how its own POST settles, so the server's answer (and
      whether the network is up) may differ from one send to the next, even
      for the same history. */
  datatype Event = Typed(text: string) | Sent(post: Post)

  function Step(st: State, e: Event): State {
    match e
    case Typed(text) => st.(input := text)
    case Sent(post) => HandleSend(st, post)
  }

  function Run(st: State, events: seq<Event>): State
    decreases |events|
  {
    if |events| == 0 then st else Run(Step(st, events[0]), events[1..])
  }

  /** The turns one event pushes, before any trimming. */
  function EventTurns(st: State, e: Event): seq<Turn> {
    if e.Sent? then Pushed(st, e.post) else []
  }

  /** Every turn the events push, in order: the whole conversation. */
  function Conversation(st: State, events: seq<Event>): seq<Turn>
    decreases |events|
  {
    if |events| == 0 then []
    else EventTurns(st, events[0]) + Conversation(Step(st, events[0]), events[1..])
  }

  /** One event keeps the context the window of the conversation so far. */
  lemma StepKeepsLatest(st: State, e: Event, history: seq<Turn>)
    requires st.context == LastN(history, Window)
    ensures Step(st, e).context == LastN(history + EventTurns(st, e), Window)
  {
    if e.Sent? {
      SendKeepsLatest(st, e.post, history);
    } else {
      assert history + EventTurns(st, e) == history;
    }
  }

  /** Over any run from a state whose history is the window of `history`,
      the history stays the window of everything pushed so far. */
  lemma {:induction false} RunKeepsLatest(st: State, events: seq<Event>, history: seq<Turn>)
    requires st.context == LastN(history, Window)
    ensures Run(st, events).context == LastN(history + Conversation(st, events), Window)
    decreases |events|
  {
    if |events| == 0 {
      assert history + Conversation(st, events) == history;
    } else {
      var next := Step(st, events[0]);
      var now := EventTurns(st, events[0]);
      var rest := Conversation(next, events[1..]);
      assert Run(st, events) == Run(next, events[1..]);
      assert Conversation(st, events) == now + rest;
      assert next.context == LastN(history + now, Window) by {
        StepKeepsLatest(st, events[0], history);
      }
      assert (history + now) + rest == history + Conversation(st, events) by {
        assert (history + now) + rest == history + (now + rest);
      }
      RunKeepsLatest(next, events[1..], history + now);
    }
  }

  /** From the initial state the context is always the last ten turns of the
      conversation. */
  lemma InitialRunKeepsLatest(events: seq<Event>)
    ensures Run(Initial(), events).context == LastN(Conversation(Initial(), events), Window)
    ensures |Run(Initial(), events).context| <= Window
  {
    RunKeepsLatest(Initial(), events, []);
    assert [] + Conversation(Initial(), events) == Conversation(Initial(), events);
  }
}

=== FILE: json.dfy ===
/** JSON values as Python's `json.loads` hands them to the server, and the
    few Python operations the server applies to them (`dict.get`), with the
    exact messages CPython raises when a value has the wrong type. */
module Json {
  import opened Results
  import Text

  /** A decoded JSON value. Objects are Python dicts: only key lookup is
      used, so they are modelled as maps. Floats keep their literal text:
      only their type matters here. */
  datatype Json =
    | JNull
    | JBool(b: bool)
    | JInt(i: int)
    | JFloat(literal: string)
    | JString(s: string)
    | JArray(items: seq<Json>)
    | JObject(fields: map<string, Json>)

  const EmptyObject: Json := JObject(map[])
  const EmptyArray: Json := JArray([])

  /** `type(v).__name__` of the Python value `json.loads` produces. */
  function TypeName(v: Json): (name: string)
    ensures name == "dict" <==> v.JObject?
    ensures name == "list" <==> v.JArray?
    ensures name == "str" <==> v.JString?
    ensures name == "NoneType" <==> v.JNull?
    ensures v.JBool? ==> name == "bool"
    ensures v.JInt? ==> name == "int"
    ensures v.JFloat? ==> name == "float"
  {
    match v
    case JNull => "NoneType"
    case JBool(_) => "bool"
    case JInt(_) => "int"
    case JFloat(_) => "float"
    case JString(_) => "str"
    case JArray(_) => "list"
    case JObject(_) => "dict"
  }

  /** `str()` of the AttributeError raised by `v.get(...)` on a non-dict. */
  function NoGetMessage(typeName: string): string {
    "'" + typeName + "' object has no attribute 'get'"
  }

  /** `str()` of the TypeError raised by `for x in v` on a non-iterable. */
  function NotIterableMessage(typeName: string): string {
    "'" + typeName + "' object is not iterable"
  }

  /** `str()` of the TypeError raised by `sep.join(xs)` when `xs[index]` is not a str. */
  function JoinItemMessage(index: nat, typeName: string): string {
    "sequence item " + Text.NatToString(index) + ": expected str instance, " + typeName + " found"
  }

  /** The str values of a list known to hold only strs, in order. */
  function StringsOf(xs: seq<Json>): (ss: seq<string>)
    requires forall k :: 0 <= k < |xs| ==> xs[k].JString?
    ensures |ss| == |xs| && forall k :: 0 <= k < |xs| ==> xs[k] == JString(ss[k])
  {
    seq(|xs|, k requires 0 <= k < |xs| => xs[k].s)
  }

  /** Python's `v.get(key, default)`: defined on dicts only. */
  function Get(v: Json, key: string, default: Json): (r: Result<Json, string>)
    ensures r.Ok? <==> v.JObject?
    ensures r.Ok? && key in v.fields ==> r.value == v.fields[key]
    ensures r.Ok? && key !in v.fields ==> r.value == default
    ensures r.Err? ==> r.error == NoGetMessage(TypeName(v))
  {
    match v
    case JObject(fields) => Ok(if key in fields then fields[key] else default)
    case _ => Err(NoGetMessage(TypeName(v)))
  }

  /** The single-key object `{key: value}`. */
  function Singleton(key: string, value: Json): (r: Json)
    ensures r.JObject? && r.fields.Keys == {key}
    ensures Get(r, key, JNull) == Ok(value)
  {
    JObject(map[key := value])
  }
}

=== FILE: results.dfy ===
/** The failure-compatible result type used throughout the relay model. */
module Results {

  /** Either a value or an error; usable with `:-`. */
  datatype Result<+T, +E> = Ok(value: T) | Err(error: E) {

    predicate IsFailure() {
      Err?
    }

    function PropagateFailure<U>(): Result<U, E>
      requires Err?
    {
      Err(error)
    }

    function Extract(): T
      requires Ok?
    {
      value
    }
  }
}

=== FILE: server.dfy ===
/** The relay's server side: `generate_response` and the `/chat` route of
    server.py. The model-invocation call, the UTF-8 decode and `json.loads`
    are one opaque step, `Remote`, that yields either the parsed reply or the
    message of whatever exception it raised. Everything after it is pure. */
module Server {
  import opened Results
  import opened Text
  import opened Json

  const ModelId: string := "amazon.nova-micro-v1:0"
  const JsonMediaType: string := "application/json"
  const NoResponse: string := "No response from model."
  const ErrorPrefix: string := "Error: "

  /** The arguments of one `invoke_model` call. */
  datatype InvokeRequest = InvokeRequest(modelId: string, body: Json, accept: string, contentType: string)

  /** The remote call plus decoding and parsing of its payload: the parsed
      JSON reply, or the `str()` of the exception raised on the way. */
  type Remote = InvokeRequest -> Result<Json, string>

  /** The request `generate_response` sends: the context wrapped, unchanged
      and unvalidated, as the sole `messages` field of the body. */
  function Request(context: Json): (req: InvokeRequest)
    ensures req.modelId == ModelId
    ensures req.accept == JsonMediaType && req.contentType == JsonMediaType
    ensures req.body.JObject? && req.body.fields.Keys == {"messages"}
    ensures Get(req.body, "messages", JNull) == Ok(context)
  {
    InvokeRequest(ModelId, Singleton("messages", context), JsonMediaType, JsonMediaType)
  }

  /** The content list of a reply, reached through three nested dict
      lookups: a missing `output` or `message` counts as an empty dict and a
      missing `content` as an empty list; a level that is present but not a
      dict makes the next lookup raise. */
  function ContentOf(data: Json): (r: Result<Json, string>)
    ensures !data.JObject? ==> r == Err(NoGetMessage(TypeName(data)))
    ensures data.JObject? && "output" !in data.fields ==> r == Ok(EmptyArray)
    ensures data.JObject? && "output" in data.fields ==>
              var output := data.fields["output"];
              && (!output.JObject? ==> r == Err(NoGetMessage(TypeName(output))))
              && (output.JObject? && "message" !in output.fields ==> r == Ok(EmptyArray))
    ensures data.JObject? && "output" in data.fields && data.fields["output"].JObject?
            && "message" in data.fields["output"].fields ==>
              var message := data.fields["output"].fields["message"];
              && (!message.JObject? ==> r == Err(NoGetMessage(TypeName(message))))
              && (message.JObject? && "content" !in message.fields ==> r == Ok(EmptyArray))
              && (message.JObject? && "content" in message.fields ==> r == Ok(message.fields["content"]))
  {
    var output :- Get(data, "output", EmptyObject);
    var message :- Get(output, "message", EmptyObject);
    Get(message, "content", EmptyArray)
  }

  /** `k` is the first position of `items` holding something other than a dict. */
  predicate FirstNonObject(items: seq<Json>, k: int) {
    0 <= k < |items| && !items[k].JObject? && forall j :: 0 <= j < k ==> items[j].JObject?
  }

  /** `k` is the first position of `xs` holding something other than a str. */
  predicate FirstNonString(xs: seq<Json>, k: int) {
    0 <= k < |xs| && !xs[k].JString? && forall j :: 0 <= j < k ==> xs[j].JString?
  }

  lemma FirstNonStringUnique(xs: seq<Json>, i: int, j: int)
    requires FirstNonString(xs, i) && FirstNonString(xs, j)
    ensures i == j
  {
  }

  /** The list comprehension taking each item's `text`, with `''` for an
      item that has none. Items are visited left to right, so the first
      item that is not a dict raises. */
  function ItemTexts(items: seq<Json>): (r: Result<seq<Json>, string>)
    ensures r.Ok? <==> forall k :: 0 <= k < |items| ==> items[k].JObject?
    ensures r.Ok? ==> |r.value| == |items|
    ensures r.Ok? ==> forall k :: 0 <= k < |items| ==> Get(items[k], "text", JString("")) == Ok(r.value[k])
    ensures r.Err? ==> exists k :: FirstNonObject(items, k) && r.error == NoGetMessage(TypeName(items[k]))
  {
    if |items| == 0 then Ok([])
    else
      var text :- Get(items[0], "text", JString(""));
      var rest :- ItemTexts(items[1..]);
      assert forall k :: 1 <= k < |items| ==> items[k] == items[1..][k - 1];
      Ok([text] + rest)
  }

  /** What the comprehension of `ItemTexts` yields when it iterates over
      `content` itself. Iterating a str or a dict yields strs, on which
      `.get` fails; so only their emptiness matters. */
  function ContentTexts(content: Json): (r: Result<seq<Json>, string>)
    ensures content.JArray? ==> r == ItemTexts(content.items)
    ensures content.JString? || content.JObject? ==> (r.Ok? <==> content == JString("") || content == EmptyObject)
    ensures r.Ok? && !content.JArray? ==> r.value == []
    ensures (content.JString? || content.JObject?) && r.Err? ==> r.error == NoGetMessage("str")
    ensures content.JNull? || content.JBool? || content.JInt? || content.JFloat?
            ==> r == Err(NotIterableMessage(TypeName(content)))
  {
    match content
    case JArray(items) => ItemTexts(items)
    case JString(s) => if s == "" then Ok([]) else Err(NoGetMessage("str"))
    case JObject(fields) => if fields == map[] then Ok([]) else Err(NoGetMessage("str"))
    case _ => Err(NotIterableMessage(TypeName(content)))
  }

  /** The strings of `xs`, or the TypeError `sep.join(xs)` raises for the
      first non-str; `offset` is the position of `xs[0]` in the joined list. */
  function Strings(xs: seq<Json>, offset: nat): (r: Result<seq<string>, string>)
    ensures r.Ok? <==> forall k :: 0 <= k < |xs| ==> xs[k].JString?
    ensures r.Ok? ==> |r.value| == |xs| && forall k :: 0 <= k < |xs| ==> xs[k] == JString(r.value[k])
    ensures r.Err? ==> exists k :: FirstNonString(xs, k) && r.error == JoinItemMessage(offset + k, TypeName(xs[k]))
  {
    if |xs| == 0 then Ok([])
    else if !xs[0].JString? then Err(JoinItemMessage(offset, TypeName(xs[0])))
    else
      var rest :- Strings(xs[1..], offset + 1);
      assert forall k :: 1 <= k < |xs| ==> xs[k] == xs[1..][k - 1];
      Ok([xs[0].s] + rest)
  }

  /** Python's `sep.join(xs)` on a list of arbitrary JSON values. */
  function JoinTexts(sep: string, xs: seq<Json>): (r: Result<string, string>)
    ensures r.Ok? <==> forall k :: 0 <= k < |xs| ==> xs[k].JString?
    ensures r.Ok? ==> r.value == Join(sep, StringsOf(xs))
    ensures r.Err? ==> exists k :: FirstNonString(xs, k) && r.error == JoinItemMessage(k, TypeName(xs[k]))
  {
    var parts :- Strings(xs, 0);
    assert parts == StringsOf(xs);
    Ok(Join(sep, parts))
  }

  /** The reply text: the fallback message when the joined string is
      empty, and otherwise the joined string stripped. The emptiness test
      looks at the string BEFORE it is stripped. */
  function Finish(joined: string): (r: string)
    ensures joined == "" ==> r == NoResponse
    ensures joined != "" ==> IsStripOf(PythonStr, r, joined)
  {
    if joined == "" then NoResponse else Strip(PythonStr, joined)
  }

  /** Everything inside the `try` of `generate_response` after the remote
      step, as a two-variant result: the reply text, or the message of the
      exception that ends the `try`. */
  function Flatten(outcome: Result<Json, string>): (r: Result<string, string>)
    ensures outcome.Err? ==> r == Err(outcome.error)
    ensures r.Ok? ==> r.value == NoResponse || Unpadded(PythonStr, r.value)
  {
    var data :- outcome;
    var content :- ContentOf(data);
    var texts :- ContentTexts(content);
    var joined :- JoinTexts("\n", texts);
    var reply := Finish(joined);
    assert joined != "" ==> exists i :: 0 <= i <= |joined| - |reply| && StrippedAt(PythonStr, reply, joined, i);
    Ok(reply)
  }

  predicate HasErrorPrefix(s: string) {
    |s| >= |ErrorPrefix| && s[..|ErrorPrefix|] == ErrorPrefix
  }

  /** `generate_response(context)`: never raises. Any failure of the remote
      step or of navigating its reply is folded into `"Error: " + message`. */
  function GenerateResponse(remote: Remote, context: Json): (r: string)
    ensures remote(Request(context)).Err? ==> r == ErrorPrefix + remote(Request(context)).error
    ensures Flatten(remote(Request(context))).Err? ==> r == ErrorPrefix + Flatten(remote(Request(context))).error
    ensures Flatten(remote(Request(context))).Ok? ==> r == Flatten(remote(Request(context))).value
    ensures HasErrorPrefix(r) || r == NoResponse || Unpadded(PythonStr, r)
  {
    match Flatten(remote(Request(context)))
    case Ok(reply) => reply
    case Err(message) =>
      assert (ErrorPrefix + message)[..|ErrorPrefix|] == ErrorPrefix;
      ErrorPrefix + message
  }

  /** `data.get('context', [])` in `chat`. */
  function ContextOf(body: Json): (r: Result<Json, string>)
    ensures r.Ok? <==> body.JObject?
    ensures body.JObject? && "context" !in body.fields ==> r == Ok(EmptyArray)
    ensures body.JObject? && "context" in body.fields ==> r == Ok(body.fields["context"])
  {
    Get(body, "context", EmptyArray)
  }

  /** `POST /chat` after Flask has parsed the body: `{"response": reply}`, or
      the uncaught exception message when the body is not a JSON object
      (Flask then answers with a server error). */
  function Chat(remote: Remote, body: Json): (r: Result<Json, string>)
    ensures r.Ok? <==> body.JObject?
    ensures r.Ok? ==> r.value.JObject? && r.value.fields.Keys == {"response"}
    ensures r.Ok? ==> r.value.fields["response"] == JString(GenerateResponse(remote, ContextOf(body).value))
    ensures r.Err? ==> r.error == NoGetMessage(TypeName(body))
  {
    var context :- ContextOf(body);
    Ok(Singleton("response", JString(GenerateResponse(remote, context))))
  }
}

=== FILE: server_facts.dfy ===
/** Properties of `generate_response` and `chat`: what a well-formed model
    reply flattens to, how missing levels and text-less items behave, which
    replies fail, and how failures are folded into the returned string. */
module ServerFacts {
  import opened Results
  import opened Text
  import opened Json
  import opened Server

  /** The reply shape the model sends: `{"output": {"message": {"content": c}}}`. */
  function ReplyWith(content: Json): (data: Json)
    ensures ContentOf(data) == Ok(content)
  {
    Singleton("output", Singleton("message", Singleton("content", content)))
  }

  /** A dict holding only `{"text": t}`. */
  function TextItem(t: string): Json {
    Singleton("text", JString(t))
  }

  /** `m.get(key, default)` on a map, for the reference definitions below. */
  function FieldOr(m: map<string, Json>, key: string, default: Json): Json {
    if key in m then m[key] else default
  }

  /** An item the comprehension and the join both accept: a dict whose
      `text`, when present, is a str. */
  predicate IsTextItem(item: Json) {
    item.JObject? && ("text" in item.fields ==> item.fields["text"].JString?)
  }

  /** Reference description, independent of the step-by-step evaluation, of
      the replies `generate_response` reads without raising: every level a
      dict (or missing), and a content that is a list of text items or an
      empty str or dict. */
  ghost predicate Navigable(data: Json) {
    && data.JObject?
    && var output := FieldOr(data.fields, "output", EmptyObject);
    && output.JObject?
    && var message := FieldOr(output.fields, "message", EmptyObject);
    && message.JObject?
    && var content := FieldOr(message.fields, "content", EmptyArray);
    && match content
       case JArray(items) => forall k :: 0 <= k < |items| ==> IsTextItem(items[k])
       case JString(s) => s == ""
       case JObject(m) => m == map[]
       case _ => false
  }

  /** The text of an item, `''` when it has none. */
  function TextOf(item: Json): string
    requires IsTextItem(item)
  {
    if "text" in item.fields then item.fields["text"].s else ""
  }

  /** The texts of a list of text items, in list order. */
  function Texts(items: seq<Json>): (ts: seq<string>)
    requires forall k :: 0 <= k < |items| ==> IsTextItem(items[k])
    ensures |ts| == |items|
  {
    seq(|items|, k requires 0 <= k < |items| => TextOf(items[k]))
  }

  /** On a list of text items the comprehension and the join succeed, and the
      joined string is the items' texts joined with "\n" in list order. */
  lemma JoinedTexts(items: seq<Json>)
    requires forall k :: 0 <= k < |items| ==> IsTextItem(items[k])
    ensures ItemTexts(items).Ok?
    ensures JoinTexts("\n", ItemTexts(items).value) == Ok(Join("\n", Texts(items)))
  {
    var texts := ItemTexts(items).value;
    var ts := Texts(items);
    forall k | 0 <= k < |texts| ensures texts[k] == JString(ts[k]) {
      assert Get(items[k], "text", JString("")) == Ok(texts[k]);
    }
    assert StringsOf(texts) == ts;
  }

  /** Flattening reads nothing of the reply but its content list: replies
      with further keys (at the top level or inside `output` or `message`)
      flatten like the bare envelope with the same content. */
  lemma SameContentSameFlatten(data1: Json, data2: Json)
    requires ContentOf(data1) == ContentOf(data2)
    ensures Flatten(Ok(data1)) == Flatten(Ok(data2))
  {
  }

  /** A reply whose content is a list of text items flattens to their texts,
      joined with "\n" and finished. */
  lemma FlattenTextItems(data: Json, items: seq<Json>)
    requires ContentOf(data) == Ok(JArray(items))
    requires forall k :: 0 <= k < |items| ==> IsTextItem(items[k])
    ensures Flatten(Ok(data)) == Ok(Finish(Join("\n", Texts(items))))
  {
    JoinedTexts(items);
  }

  /** Exactly the navigable replies flatten without an exception. */
  lemma FlattenOkIffNavigable(data: Json)
    ensures Flatten(Ok(data)).Ok? <==> Navigable(data)
  {
    if Navigable(data) {
      var content := ContentOf(data).value;
      if content.JArray? {
        JoinedTexts(content.items);
      }
    } else if ContentOf(data).Ok? {
      var content := ContentOf(data).value;
      match content {
        case JArray(items) =>
          if ItemTexts(items).Ok? {
            var k :| 0 <= k < |items| && !IsTextItem(items[k]);
            assert Get(items[k], "text", JString("")) == Ok(ItemTexts(items).value[k]);
          }
        case _ =>
      }
    }
  }

  /** A reply carrying one item flattens to the item's text stripped, or to
      the fallback when the item has no text or an empty one. */
  lemma SingleText(data: Json, item: Json)
    requires ContentOf(data) == Ok(JArray([item])) && IsTextItem(item)
    ensures Flatten(Ok(data)) == Ok(if TextOf(item) == "" then NoResponse else Strip(PythonStr, TextOf(item)))
  {
    FlattenTextItems(data, [item]);
    assert Texts([item]) == [TextOf(item)];
  }

  /** The list of text items carrying `ts`, one each. */
  function ItemsOf(ts: seq<string>): (items: seq<Json>)
    ensures |items| == |ts|
    ensures forall k :: 0 <= k < |ts| ==> IsTextItem(items[k])
    ensures Texts(items) == ts
  {
    var items := seq(|ts|, k requires 0 <= k < |ts| => TextItem(ts[k]));
    assert forall k :: 0 <= k < |ts| ==> TextOf(items[k]) == ts[k];
    items
  }

  /** Several texts come back joined with "\n" in their original order,
      unstripped when the joined string has no surrounding whitespace. */
  lemma TextsJoinedInOrder(data: Json, items: seq<Json>)
    requires ContentOf(data) == Ok(JArray(items))
    requires forall k :: 0 <= k < |items| ==> IsTextItem(items[k])
    requires Join("\n", Texts(items)) != "" && Unpadded(PythonStr, Join("\n", Texts(items)))
    ensures Flatten(Ok(data)) == Ok(Join("\n", Texts(items)))
  {
    FlattenTextItems(data, items);
    StripUnpadded(PythonStr, Join("\n", Texts(items)));
  }

  /** Splitting such a reply on "\n" gives back the texts, one per item, as
      long as no text holds a newline of its own. */
  lemma ReplyLinesAreTexts(data: Json, items: seq<Json>)
    requires ContentOf(data) == Ok(JArray(items))
    requires |items| >= 1 && forall k :: 0 <= k < |items| ==> IsTextItem(items[k])
    requires forall k :: 0 <= k < |items| ==> '\n' !in TextOf(items[k])
    requires Join("\n", Texts(items)) != "" && Unpadded(PythonStr, Join("\n", Texts(items)))
    ensures Flatten(Ok(data)).Ok?
    ensures Split('\n', Flatten(Ok(data)).value) == Texts(items)
  {
    TextsJoinedInOrder(data, items);
    SplitJoin('\n', Texts(items));
  }

  /** A missing `output`, `message` or `content` acts as an empty content
      list, and an empty list gives exactly the fallback. */
  lemma MissingLevelsGiveFallback(data: Json)
    requires data.JObject?
    requires || "output" !in data.fields
             || (data.fields["output"].JObject? && "message" !in data.fields["output"].fields)
             || (data.fields["output"].JObject? && data.fields["output"].fields["message"].JObject?
                 && "content" !in data.fields["output"].fields["message"].fields)
             || ContentOf(data) == Ok(EmptyArray)
    ensures ContentOf(data) == Ok(EmptyArray)
    ensures Flatten(Ok(data)) == Ok(NoResponse)
  {
  }

  function Newlines(n: nat): (r: string)
    ensures |r| == n && forall k :: 0 <= k < n ==> r[k] == '\n'
  {
    if n == 0 then "" else Newlines(n - 1) + "\n"
  }

  lemma {:induction false} JoinEmpties(n: nat)
    requires n >= 1
    ensures Join("\n", seq(n, _ => "")) == Newlines(n - 1)
  {
    if n > 1 {
      JoinEmpties(n - 1);
      assert seq(n, _ => "")[1..] == seq(n - 1, _ => "");
      assert "\n" + Newlines(n - 2) == Newlines(n - 2) + "\n";
    }
  }

  /** Items without a `text` key contribute `''` but still count as joined
      elements: n of them join to n-1 newlines. Since the fallback is
      chosen before stripping, one such item yields the fallback while two
      or more yield the empty string. */
  lemma TextlessItems(data: Json, items: seq<Json>)
    requires ContentOf(data) == Ok(JArray(items))
    requires |items| >= 1
    requires forall k :: 0 <= k < |items| ==> items[k].JObject? && "text" !in items[k].fields
    ensures Flatten(Ok(data)) == Ok(if |items| == 1 then NoResponse else "")
  {
    FlattenTextItems(data, items);
    assert Texts(items) == seq(|items|, _ => "");
    JoinEmpties(|items|);
    StripEmptyIffAllSpace(PythonStr, Newlines(|items| - 1));
  }

  /** The fallback test looks at the joined string before stripping: it
      fires on an empty join, and a non-empty all-whitespace join gives "". */
  lemma FallbackOnlyOnEmptyJoin(joined: string)
    ensures Finish(joined) == NoResponse <==> joined == "" || Strip(PythonStr, joined) == NoResponse
    ensures joined != "" && AllSpace(PythonStr, joined) ==> Finish(joined) == ""
  {
    StripEmptyIffAllSpace(PythonStr, joined);
  }

  /** A reply that is not a dict fails at the first `.get`. */
  lemma NonObjectReplyFails(remote: Remote, context: Json)
    requires remote(Request(context)).Ok? && !remote(Request(context)).value.JObject?
    ensures GenerateResponse(remote, context)
            == ErrorPrefix + NoGetMessage(TypeName(remote(Request(context)).value))
  {
  }

  /** In a list of dicts, an item whose `text` is not a str makes the join
      raise, naming the first such position; earlier items may have a str
      `text` or none at all. */
  lemma NonStringTextFails(data: Json, items: seq<Json>, k: nat)
    requires ContentOf(data) == Ok(JArray(items))
    requires k < |items|
    requires forall j :: 0 <= j < |items| ==> items[j].JObject?
    requires forall j :: 0 <= j < k ==> IsTextItem(items[j])
    requires "text" in items[k].fields && !items[k].fields["text"].JString?
    ensures Flatten(Ok(data)) == Err(JoinItemMessage(k, TypeName(items[k].fields["text"])))
  {
    var texts := ItemTexts(items).value;
    assert texts[k] == items[k].fields["text"] by {
      assert Get(items[k], "text", JString("")) == Ok(texts[k]);
    }
    forall j | 0 <= j < k ensures texts[j].JString? {
      assert Get(items[j], "text", JString("")) == Ok(texts[j]);
    }
    assert FirstNonString(texts, k);
    var r := JoinTexts("\n", texts);
    var k' :| FirstNonString(texts, k') && r.error == JoinItemMessage(k', TypeName(texts[k']));
    FirstNonStringUnique(texts, k, k');
    assert ContentTexts(JArray(items)) == Ok(texts);
    assert r == Err(JoinItemMessage(k, TypeName(items[k].fields["text"])));
  }

  /** The test suite's examples. */
  lemma SuiteSingleText(remote: Remote, context: Json)
    requires remote(Request(context)) == Ok(ReplyWith(JArray([TextItem("Paris is the capital of France.")])))
    ensures GenerateResponse(remote, context) == "Paris is the capital of France."
  {
    var paris := "Paris is the capital of France.";
    assert paris[0] == 'P' && paris[|paris| - 1] == '.';
    assert Strip(PythonStr, paris) == paris by {
      StripUnpadded(PythonStr, paris);
    }
    SingleText(ReplyWith(JArray([TextItem(paris)])), TextItem(paris));
    assert Flatten(remote(Request(context))) == Ok(paris);
  }

  lemma TwoPartsJoined()
    ensures Flatten(Ok(ReplyWith(JArray(ItemsOf(["First part.", "Second part."])))))
            == Ok("First part.\nSecond part.")
  {
    var two := ["First part.", "Second part."];
    var joined := "First part.\nSecond part.";
    assert Join("\n", two) == joined by {
      assert two[1..] == ["Second part."];
    }
    assert Unpadded(PythonStr, joined) by {
      assert joined[0] == 'F' && joined[|joined| - 1] == '.';
    }
    TextsJoinedInOrder(ReplyWith(JArray(ItemsOf(two))), ItemsOf(two));
  }

  lemma SuiteTwoTexts(remote: Remote, context: Json)
    requires remote(Request(context)) == Ok(ReplyWith(JArray(ItemsOf(["First part.", "Second part."]))))
    ensures GenerateResponse(remote, context) == "First part.\nSecond part."
  {
    TwoPartsJoined();
  }

  lemma SuiteFailures(remote: Remote, context: Json)
    ensures remote(Request(context)) == Ok(ReplyWith(EmptyArray)) ==> GenerateResponse(remote, context) == NoResponse
    ensures remote(Request(context)) == Ok(EmptyObject) ==> GenerateResponse(remote, context) == NoResponse
    ensures remote(Request(context)) == Err("AWS Error") ==> GenerateResponse(remote, context) == "Error: AWS Error"
  {
  }

  /** A body without `context` runs the generator on an empty list. */
  lemma ChatDefaultsContext(remote: Remote, body: Json)
    requires body.JObject? && "context" !in body.fields
    ensures Chat(remote, body) == Ok(Singleton("response", JString(GenerateResponse(remote, EmptyArray))))
  {
  }
}

=== FILE: text.dfy ===
/** String helpers shared by the server and the browser client: whitespace
    stripping under Python's and JavaScript's rules, joining with a
    separator (and splitting it back), and decimal rendering of indices. */
module Text {

  /** Which language's notion of "whitespace" a strip uses. */
  datatype WhitespaceRule =
    | PythonStr   // str.strip() with no argument: str.isspace() characters
    | JavaScript  // String.prototype.trim(): WhiteSpace and LineTerminator

  /** Characters both rules agree on. */
  predicate IsCommonSpace(c: char) {
    || c == ' ' || c == '\t' || c == '\n' || c == '\U{000B}' || c == '\U{000C}' || c == '\r'
    || c == '\U{00A0}' || c == '\U{1680}' || ('\U{2000}' <= c <= '\U{200A}')
    || c == '\U{2028}' || c == '\U{2029}' || c == '\U{202F}' || c == '\U{205F}' || c == '\U{3000}'
  }

  predicate IsSpace(rule: WhitespaceRule, c: char) {
    match rule
    // Python also counts the information separators and NEL as whitespace
    case PythonStr => IsCommonSpace(c) || ('\U{001C}' <= c <= '\U{001F}') || c == '\U{0085}'
    // JavaScript also counts the byte-order mark
    case JavaScript => IsCommonSpace(c) || c == '\U{FEFF}'
  }

  predicate AllSpace(rule: WhitespaceRule, s: string) {
    forall i :: 0 <= i < |s| ==> IsSpace(rule, s[i])
  }

  /** Neither starts nor ends with whitespace (trivially true of ""). */
  predicate Unpadded(rule: WhitespaceRule, s: string) {
    s == [] || (!IsSpace(rule, s[0]) && !IsSpace(rule, s[|s| - 1]))
  }

  /** `r` is `s` with its leading and trailing whitespace removed: an infix
      of `s`, only whitespace around it, and itself unpadded. */
  ghost predicate IsStripOf(rule: WhitespaceRule, r: string, s: string) {
    exists i :: 0 <= i <= |s| - |r| && StrippedAt(rule, r, s, i)
  }

  ghost predicate StrippedAt(rule: WhitespaceRule, r: string, s: string, i: int)
    requires 0 <= i <= |s| - |r|
  {
    && r == s[i..i + |r|]
    && (forall k :: 0 <= k < i ==> IsSpace(rule, s[k]))
    && (forall k :: i + |r| <= k < |s| ==> IsSpace(rule, s[k]))
    && Unpadded(rule, r)
  }

  /** The end of the run of whitespace starting at `i`. */
  function SpaceRunFrom(rule: WhitespaceRule, s: string, i: nat): (j: nat)
    requires i <= |s|
    ensures i <= j <= |s|
    ensures forall k :: i <= k < j ==> IsSpace(rule, s[k])
    ensures j == |s| || !IsSpace(rule, s[j])
    decreases |s| - i
  {
    if i < |s| && IsSpace(rule, s[i]) then SpaceRunFrom(rule, s, i + 1) else i
  }

  /** The start of the run of whitespace ending just before `j`, not going
      below `lo`. */
  function SpaceRunUntil(rule: WhitespaceRule, s: string, lo: nat, j: nat): (e: nat)
    requires lo <= j <= |s|
    ensures lo <= e <= j
    ensures forall k :: e <= k < j ==> IsSpace(rule, s[k])
    ensures e == lo || !IsSpace(rule, s[e - 1])
    decreases j
  {
    if lo < j && IsSpace(rule, s[j - 1]) then SpaceRunUntil(rule, s, lo, j - 1) else j
  }

  /** Python's `s.strip()` or JavaScript's `s.trim()`, depending on `rule`. */
  function Strip(rule: WhitespaceRule, s: string): (r: string)
    ensures IsStripOf(rule, r, s)
  {
    var i := SpaceRunFrom(rule, s, 0);
    var e := SpaceRunUntil(rule, s, i, |s|);
    var r := s[i..e];
    assert r != [] ==> r[0] == s[i] && r[|r| - 1] == s[e - 1];
    assert StrippedAt(rule, r, s, i);
    r
  }

  /** The stripped form of a string is unique, so `IsStripOf` pins `Strip` down. */
  lemma StripOfUnique(rule: WhitespaceRule, r1: string, r2: string, s: string)
    requires IsStripOf(rule, r1, s) && IsStripOf(rule, r2, s)
    ensures r1 == r2
  {
    var i1 :| 0 <= i1 <= |s| - |r1| && StrippedAt(rule, r1, s, i1);
    var i2 :| 0 <= i2 <= |s| - |r2| && StrippedAt(rule, r2, s, i2);
    assert r1 != [] ==> s[i1] == r1[0] && s[i1 + |r1| - 1] == r1[|r1| - 1];
    assert r2 != [] ==> s[i2] == r2[0] && s[i2 + |r2| - 1] == r2[|r2| - 1];
  }

  /** `Strip` is exactly the function described by `IsStripOf`. */
  lemma StripCharacterized(rule: WhitespaceRule, r: string, s: string)
    ensures Strip(rule, s) == r <==> IsStripOf(rule, r, s)
  {
    if IsStripOf(rule, r, s) {
      StripOfUnique(rule, r, Strip(rule, s), s);
    }
  }

  /** An unpadded string strips to itself; in particular stripping is idempotent. */
  lemma StripUnpadded(rule: WhitespaceRule, s: string)
    requires Unpadded(rule, s)
    ensures Strip(rule, s) == s
  {
    assert StrippedAt(rule, s, s, 0);
    StripCharacterized(rule, s, s);
  }

  lemma StripIdempotent(rule: WhitespaceRule, s: string)
    ensures Strip(rule, Strip(rule, s)) == Strip(rule, s)
  {
    var r := Strip(rule, s);
    var i :| 0 <= i <= |s| - |r| && StrippedAt(rule, r, s, i);
    StripUnpadded(rule, r);
  }

  /** A string strips to "" exactly when it is all whitespace. */
  lemma StripEmptyIffAllSpace(rule: WhitespaceRule, s: string)
    ensures Strip(rule, s) == "" <==> AllSpace(rule, s)
  {
    var r := Strip(rule, s);
    var i :| 0 <= i <= |s| - |r| && StrippedAt(rule, r, s, i);
    assert r != "" ==> s[i] == r[0];
  }

  /** Python's `sep.join(parts)`, restricted to parts that are already strings. */
  function Join(sep: string, parts: seq<string>): (r: string)
    ensures |parts| == 0 ==> r == ""
    ensures |parts| == 1 ==> r == parts[0]
    ensures |parts| >= 1 ==> |parts[0]| <= |r| && r[..|parts[0]|] == parts[0]
    ensures |parts| >= 2 ==> r[|parts[0]|..] == sep + Join(sep, parts[1..])
  {
    if |parts| == 0 then ""
    else if |parts| == 1 then parts[0]
    else parts[0] + sep + Join(sep, parts[1..])
  }

  /** Splitting on one character: the inverse of `Join([c], _)`. */
  function Split(c: char, s: string): (r: seq<string>)
    ensures |r| >= 1
    decreases |s|
  {
    if |s| == 0 then [""]
    else if s[0] == c then [""] + Split(c, s[1..])
    else
      var rest := Split(c, s[1..]);
      [[s[0]] + rest[0]] + rest[1..]
  }

  lemma {:induction false} SplitFree(c: char, p: string)
    requires c !in p
    ensures Split(c, p) == [p]
    decreases |p|
  {
    if |p| > 0 {
      SplitFree(c, p[1..]);
      assert [p[0]] + p[1..] == p;
    }
  }

  lemma {:induction false} SplitAfter(c: char, p: string, rest: string)
    requires c !in p
    ensures Split(c, p + [c] + rest) == [p] + Split(c, rest)
    decreases |p|
  {
    if |p| == 0 {
      assert p + [c] + rest == [c] + rest;
      assert ([c] + rest)[1..] == rest;
    } else {
      var s := p + [c] + rest;
      assert s[0] == p[0];
      assert s[1..] == p[1..] + [c] + rest;
      SplitAfter(c, p[1..], rest);
      assert [p[0]] + p[1..] == p;
    }
  }

  /** Joining with one character and splitting on it gives the parts back,
      so the joined string keeps every part, in order. */
  lemma {:induction false} SplitJoin(c: char, parts: seq<string>)
    requires |parts| >= 1
    requires forall k :: 0 <= k < |parts| ==> c !in parts[k]
    ensures Split(c, Join([c], parts)) == parts
    decreases |parts|
  {
    if |parts| == 1 {
      SplitFree(c, parts[0]);
    } else {
      SplitJoin(c, parts[1..]);
      SplitAfter(c, parts[0], Join([c], parts[1..]));
      assert [parts[0]] + parts[1..] == parts;
    }
  }

  function DigitChar(d: nat): (c: char)
    requires d < 10
    ensures '0' <= c <= '9'
  {
    ('0' as int + d) as char
  }

  /** Python's `str(n)` for a non-negative int. */
  function NatToString(n: nat): (r: string)
    ensures |r| >= 1
    ensures forall k :: 0 <= k < |r| ==> '0' <= r[k] <= '9'
    ensures |r| > 1 ==> r[0] != '0'
  {
    if n < 10 then [DigitChar(n)] else NatToString(n / 10) + [DigitChar(n % 10)]
  }

  /** Decimal reading of a string of digits. */
  function DecimalValue(s: string): nat
    requires forall k :: 0 <= k < |s| ==> '0' <= s[k] <= '9'
  {
    if |s| == 0 then 0
    else 10 * DecimalValue(s[..|s| - 1]) + (s[|s| - 1] as int - '0' as int)
  }

  lemma {:induction false} NatToStringRoundTrip(n: nat)
    ensures DecimalValue(NatToString(n)) == n
  {
    if n >= 10 {
      NatToStringRoundTrip(n / 10);
      var r := NatToString(n);
      assert r[..|r| - 1] == NatToString(n / 10);
    }
  }
}
